=== FILE: README.md ===
# udpbench core in Dafny

udpbench is a UDP load-test harness. Simulated clients send payloads and
`"ping"` heartbeats to a server. The server keeps a fixed-size table of
client slots keyed by UDP address. It counts each client's pings and
payloads, broadcasts heartbeats, and frees slots whose clients have gone
quiet. Both sides read from the socket through a connection wrapper. That
wrapper drops empty reads and hands the rest to the application in arrival
order, and each application tick drains whatever has arrived. Its check
against oversize reads can never fire (see Findings).

This project models that sequential core as pure functions over immutable
values:

- `udp.dfy`, module `Udp`: the shared vocabulary. It holds bytes, Go's
  nil-able `*net.UDPAddr` as an `Option`, and the `addressEqual` test with
  IP equality as Go's `net.IP.Equal` defines it (an IPv4 address equals its
  IPv4-mapped IPv6 form). It also holds the received-datagram envelope and
  the `"ping"` sentinel with the 100 ms heartbeat period.
- `netcode.dfy`, module `Netcode` (conn.go): the connection lifecycle. A new
  connection is closed and has no socket. `Dial` and `Listen` need a handler
  and open the connection; when the operating system refuses, the socket
  field is left nil. Writes fail while the connection is closed.
  `SetMaxPackets` is ignored once the connection is open. `Close` signals
  the read loop only if the connection was open. The module also has the
  `read` length checks and the in-order delivery of the reader and dispatch
  tasks. Go's close channel is the flag `closeSignalled`. Go panics when a
  channel is closed twice and when a method is called through a nil socket.
  Both panics are outcomes here.
- `server.dfy`, module `Server` (server.go): the session table as a
  `seq<ClientInstance>`. It covers lookup and first-free-slot allocation,
  classification, the strict timeout sweep, send counting, and the tick:
  drain, then heartbeat, then sweep. The invariants are address uniqueness
  and "free slots are zeroed".
- `client.go`'s logic is module `Client` in `client.dfy`. It has the tick
  (drain, then heartbeat), the two wrapping `uint32` counters and the
  address filter, modelled as written: it compares the client's server
  address with the process-wide `addr`, not with the sender.
  `PayloadCount` and `PingCount` are the counter getters. What they report
  after any drain, wrap-around included, is stated by
  `Client.DrainCountsModular`.

Times are integer milliseconds. The 0.1 s heartbeat interval is 100. The
eviction threshold `runTime + 1.0` s is `runTime + 1000`, and `runTime` is
passed in rather than read from main.go's global. The operating system's
answers are parameters: whether a dial or bind succeeds, the byte count and
sender of a read, and the result of a write. Whether the wrapper holds a
socket at all is state, because calls through a nil socket panic.
`Netcode.OsReceive` states how Linux fills the read buffer, which is what
the oversize finding rests on.

Boundary behaviour the code fixes:
- A heartbeat goes out only when strictly more than 100 ms have passed since
  the last one (server.go:67, client.go:50). At exactly 100 ms none goes out.
- A slot survives a sweep at exactly `lastRecvTime + runTime + 1 s` and is
  evicted only after that (server.go:82).
- A new client's counters are incremented from whatever the free slot holds
  (server.go:132-136). They equal one ping or one payload only when free
  slots are zeroed, which `Server.OnPacketDataClaimsClean` states.
- `Close` panics in two cases. One is an open connection whose close
  channel already fired (see Findings). The other is a connection whose
  socket is nil, because it was never opened or its last Dial or Listen
  failed (conn.go:80-86, 114, 128).

## Model

| member | source | states |
|---|---|---|
| `Udp.AddressEqualProperties` | server.go:147-152 | A nil address never matches. The test is symmetric, reflexive on non-nil addresses, and ignores the IPv6 zone. |
| `Udp.MappedV4Equal` | server.go:151 | An IPv4 address and its IPv4-mapped IPv6 form with the same port are the same peer. |
| `Netcode.NewNetcodeConn` | conn.go:40-52 | A fresh connection is closed and has no handler. Its close signal is unfired. maxBytes is 1220, maxPackets is MAX_PACKETS (256), and both socket buffers are 1 MiB. It satisfies the `Live` invariant. |
| `Netcode.SetMaxPackets` | conn.go:54-60 | Changes maxPackets (and nothing else) only while closed. On an open connection it is a no-op, so an open connection's queue size keeps matching maxPackets. |
| `Netcode.SetRecvHandler` | conn.go:62-64 | Only the handler changes. Installing nil removes it. |
| `Netcode.SetReadBuffer` | conn.go:88-90 | Only the recorded receive-buffer size changes, whether the connection is open or closed. The socket gets the size only from `create`, at the next Dial or Listen. `Live` is kept. |
| `Netcode.SetWriteBuffer` | conn.go:92-94 | Only the recorded send-buffer size changes, open or closed, and `Live` is kept. |
| `Netcode.Write` | conn.go:66-71 | On a closed connection it returns -1 and ClosedError and issues no system call. When open with a socket, exactly one write of the given bytes is issued, and its count and error are passed through. When open with a nil socket it panics. A `Live` connection never panics. |
| `Netcode.WriteTo` | conn.go:73-78 | Same as Write, with the write addressed to the given peer. |
| `Netcode.Close` | conn.go:80-86 | If the connection is open and its signal already fired, Go's close of a closed channel panics. Otherwise a nil socket panics. Otherwise the close signal fires exactly when the connection was open, the connection is closed afterwards, and the socket reports an error exactly when it was already closed. A `Live` connection with a socket never panics, and `Live` holds afterwards. |
| `Netcode.CloseIdempotent` | conn.go:80-86 | A second Close changes nothing and does not re-signal. Only the socket's own close error is returned. |
| `Netcode.CloseBeforeOpenPanics` | conn.go:80-86 | Closing a connection that was never opened panics on the nil socket, with or without a handler. |
| `Netcode.Create` | conn.go:137-146 | Opens the connection and sizes the new read loop's queue from maxPackets, changing nothing else. The result is `Live` exactly when a socket is present and the installed close signal has not fired. |
| `Netcode.Dial` | conn.go:106-119 | With no handler: ConfigError, nothing changes. Otherwise a fresh close signal is installed even if the dial then fails. A failed dial gives BindError and a nil socket, with isClosed unchanged. Success leaves the connection open and `Live`, with a socket and a queue sized from maxPackets; nothing else changes, so the handler and limits are kept. `Live` is kept except when a dial fails on an open connection. |
| `Netcode.FailedRedialPanics` | conn.go:106-119 | A failed Dial on an open connection leaves it marked open with a nil socket, so the next Write and the next Close panic. |
| `Netcode.Listen` | conn.go:121-135 | As written. With no handler: ConfigError, unchanged. If the bind fails: BindError and a nil socket. On success the connection is open with a socket and a queue sized from maxPackets, and nothing else changes: the handler and limits are kept, and so is the installed close signal, whether or not it already fired. |
| `Netcode.RelistenThenClosePanics` | conn.go:121-135 | Listen, Close, Listen leaves an open connection whose close signal has already fired. The next Close panics. |
| `Netcode.ListenFresh` | conn.go:121-135 | Listen as intended: the same error cases, but success also installs a fresh close signal and changes nothing else, so the result is `Live`. |
| `Netcode.RelistenFreshThenCloseSucceeds` | conn.go:121-135 | With the corrected Listen, two Listen/Close pairs on one connection each signal exactly once and never panic. |
| `Netcode.ListenFreshCloseStep` | conn.go:80-135 | With the corrected Listen, one Listen/Close pair from a live connection with a handler signals exactly once. It leaves a live, closed connection that keeps its handler, so by induction any number of pairs never panics. |
| `Netcode.ListenAgreesWhenUnsignalled` | conn.go:121-135 | On a connection whose close signal has not fired (in particular a new one), the as-written and corrected Listen agree. |
| `Netcode.Filter` | conn.go:172-187 | The checks of `read` against a limit. An OS read error is passed on. n = 0 and n > limit are rejected with their own errors, and these are the only rejections. An accepted read yields an envelope whose data is exactly the first n bytes of the buffer, with the OS-reported sender. |
| `Netcode.Read` | conn.go:166-188 | As written, with the buffer cut to maxBytes, which the OS never overfills. An OS error is passed on, and n = 0 is rejected. Every other read is delivered as the first n bytes with the OS-reported sender. The oversize rejection never happens. |
| `Netcode.OsReceive` | conn.go:171-172 | Linux's `ReadFromUDP` into a buffer: it reports min(payload length, buffer length) bytes and copies that prefix of the payload. |
| `Netcode.OversizeDeliveredTruncated` | conn.go:171-187 | As written, a datagram longer than maxBytes is delivered cut to its first maxBytes bytes, not rejected. |
| `Netcode.ReadIntact` | conn.go:163-187 | Corrected read with a buffer of maxBytes + 1. Reads of 1..maxBytes bytes are delivered as their first n bytes, and more than maxBytes is rejected as oversize. |
| `Netcode.ReadIntactDropsOversize` | conn.go:163-187 | With the corrected read, a datagram is delivered exactly when its length is in 1..maxBytes, and then whole and unaltered. A longer one is rejected. |
| `Netcode.Deliver` | conn.go:148-204 | The reader and dispatch tasks hand on one envelope per accepted read and drop the rest. Every delivered envelope has length in 1..maxBytes. |
| `Netcode.DeliverOne` | conn.go:148-204 | A single read is handed on as exactly the envelope `read` made of it when it passes the filter, and as nothing otherwise. With `DeliverAppend` this fixes the content of every delivery. |
| `Netcode.DeliverAppend` | conn.go:148-204 | Delivery is FIFO: the envelopes of reads a then b are those of a followed by those of b. |
| `Netcode.DeliverSenders` | conn.go:184-187 | If the OS reported a sender for every received datagram, every delivered envelope has a non-nil sender. |
| `Server.NewServer` | server.go:33-41 | The table has exactly maxClients slots, all zero-valued and free. The packet queue holds maxClients × MAX_PACKETS × 2. The server address and maxClients are stored as given. The new table is well formed (unique addresses, zeroed free slots). |
| `Server.Listen` | server.go:44-49 | Uses the as-written Listen. The server's connection has a handler and a queue limit of maxClients × MAX_PACKETS × 2. It is open and `Live` exactly when the bind succeeds; otherwise it reports BindError and stays closed. |
| `Server.FindClient` | server.go:111-122 | Returns the lowest index whose slot is occupied by an address equal to the sender, or nothing exactly when no slot matches. |
| `Server.FindFree` | server.go:125-139 | Returns the lowest free index, or nothing exactly when every slot is occupied. |
| `Server.Record` | server.go:114-119 | A refreshed slot keeps its address and takes the tick time. A "ping" raises only pingCount by 1, and anything else raises only payloadCount by 1. |
| `Server.OnPacketData` | server.go:109-145 | Only table slots change. A known sender's first matching slot is refreshed and nothing else changes, so no allocation happens. A refreshed or claimed slot takes the tick time; a byte-exact "ping" raises only its pingCount by 1, and any other data only its payloadCount. An unknown sender claims the lowest free slot, and only that slot changes. With no match and no free slot the state is unchanged. No counter ever decreases. |
| `Server.OnPacketDataClaimsClean` | server.go:125-139 | In a table whose free slots are zeroed, a new sender's slot holds its address and the tick time, with one counter at 1 and the other at 0. |
| `Server.OnPacketDataPreservesUnique` | server.go:109-145 | For any sender, nil included, no two slots hold equal addresses afterwards if none did before. A nil sender's claimed slot keeps a nil address, which matches nothing. |
| `Server.OnPacketDataPreservesFreeClean` | server.go:125-139 | For a non-nil sender, free slots stay zeroed. |
| `Server.NilSenderDirtiesFreeSlot` | server.go:128-136 | As written, a nil sender "claims" the first free slot: the slot stays free but a counter is raised. |
| `Server.CheckTimeouts` | server.go:77-91 | Each occupied slot with lastRecvTime + runTime + 1 s < now (strict) is reset to the zero value. Every other slot is untouched. Every surviving occupied slot was heard from within the threshold. Uniqueness and zeroed free slots are preserved. |
| `Server.RefreshedClientSurvives` | server.go:111-119 | A datagram from a known client refreshes its slot at the tick time. Any sweep up to that time plus runTime + 1 s keeps the slot with its address and the raised counter. |
| `Server.CheckTimeoutsIdempotent` | server.go:77-91 | A second sweep at the same instant evicts nothing more. |
| `Server.EvictionTiming` | server.go:82 | A client last heard at t survives every sweep up to t + runTime + 1 s and is freed by any sweep after that. |
| `Server.Writes` | server.go:99-106 | The scan of Send starts at most one write per slot, each carrying the data. |
| `Server.WritesTargets` | server.go:99-106 | Send writes to exactly the addresses held in the table. |
| `Server.WritesCount` | server.go:99-106 | Send starts exactly one write per occupied slot. |
| `Server.Send` | server.go:99-106 | Only sendCount changes, and it rises by the number of writes. The writes carry the data and go to exactly the occupied addresses. |
| `Server.SendCountsOccupied` | server.go:99-106 | sendCount rises by exactly the number of occupied slots. |
| `Server.Drain` | server.go:57-65 | The drain loop changes only the table, keeps its size, and never lowers any slot's counters. |
| `Server.DrainOne` | server.go:57-65 | An empty queue leaves the server unchanged, and a one-envelope queue is exactly one `OnPacketData` of its data and sender. With `DrainAppend` this fixes what any drain does. |
| `Server.DrainAppend` | server.go:57-65 | The queue is processed FIFO. Draining q1 + q2 equals draining q1 and then q2. |
| `Server.DrainPreservesWellFormed` | server.go:57-65 | Draining envelopes with non-nil senders keeps addresses unique and free slots zeroed. |
| `Server.Update` | server.go:54-74 | The tick records its time and keeps the address, maxClients and queue size. The table afterwards is exactly the sweep at now of the table left by draining the queue. It sends pings and sets lastSendTime := now when lastSendTime + 100 ms < now; otherwise it sends nothing and lastSendTime and sendCount stay put. After the sweep, every occupied slot is within its timeout. |
| `Server.UpdateHeartbeatTargets` | server.go:67-70 | A due heartbeat is one ping to every client in the table after the drain, and sendCount rises by their number. |
| `Server.UpdatePreservesWellFormed` | server.go:54-74 | A tick keeps the table well formed when every queued sender is non-nil. |
| `Server.TwoSlotScenario` | server.go:77-145 | Two slots: a payload from A fills slot 0 (payloadCount 1), and a ping from B fills slot 1 (pingCount 1). C then finds the table full and changes nothing. A sweep 20 ms past the threshold frees both slots. |
| `Server.UpdateOnDeliveredKeepsWellFormed` | server.go:54-96 | A tick over whatever the connection delivered keeps the table well formed, provided the OS reported every sender. |
| `Client.Inc` | client.go:68 | The atomic uint32 increment adds one below 2^32 - 1 and wraps to 0 there. |
| `Client.NewClient` | client.go:19-24 | Both counters start at 0, and the packet queue holds MAX_PACKETS. |
| `Client.Connect` | client.go:27-31 | The client's connection has a handler and the default limits. It is open and `Live` exactly when the dial succeeds; otherwise it reports BindError and stays closed. |
| `Client.OnPacketData` | client.go:62-73 | If the filter rejects, nothing changes. Past the filter, a "ping" raises only pingCount and anything else raises only payloadCount. |
| `Client.SenderIgnored` | client.go:63-65 | The sender's address never affects the outcome. |
| `Client.Drain` | client.go:41-48 | The drain loop changes only the counters. When the client's server address differs from the global address, no queue ever changes the client. Past the filter and short of wrap-around, neither counter decreases and together they rise by the queue length. |
| `Client.DrainOne` | client.go:41-48 | An empty queue leaves the client unchanged, and a one-envelope queue is exactly one `OnPacketData`. |
| `Client.DrainAppend` | client.go:41-48 | The queue is processed FIFO. Draining q1 + q2 equals draining q1 and then q2. |
| `Client.DrainCounts` | client.go:62-83 | Past the filter and short of wrap-around, each envelope is counted exactly once. PingCount rises by the number of pings, and PayloadCount by the rest. Neither decreases. |
| `Client.DrainCountsModular` | client.go:62-83 | Past the filter, for any queue, PingCount after the drain is the starting ping counter plus the number of pings, modulo 2^32, and PayloadCount is the starting payload counter plus the number of other datagrams, modulo 2^32. |
| `Client.PingCounterWraps` | client.go:68 | At 2^32 - 1 one more ping wraps PingCount to 0. |
| `Client.Update` | client.go:39-54 | A heartbeat goes out iff lastSendTime + 100 ms < now. It then sets lastSendTime := now; otherwise lastSendTime is unchanged. The server address and queue size never change. |
| `Client.UpdateCountsAreDrain` | client.go:39-54 | A tick's counters are exactly those left by draining its queue before the heartbeat check. |
| `Client.SendHeartbeat` | client.go:56-59 | A heartbeat on an open connection with a socket issues one write of "ping". On a closed one it issues nothing and yields -1 and ClosedError. It panics exactly when the connection is open with a nil socket. |

## Findings

| source | as written | input that shows it | evidently intended | confidence | as-written member | corrected member |
|---|---|---|---|---|---|---|
| conn.go:121-135 | `Listen` keeps the installed close channel, while `Dial` (conn.go:113) makes a fresh one | On one connection: set a handler, Listen, Close, Listen, Close. The second Close runs Go's `close` on the channel the first Close already closed, which panics. Also, the reopened read loop sees the fired signal and exits. | Listen installs a fresh close channel, as Dial does, so every open connection has an unfired close signal | medium; not executed | `Netcode.Listen` | `Netcode.ListenFresh` |
| conn.go:171-183 | `read` hands `ReadFromUDP` a buffer of exactly maxBytes, so n > maxBytes can never be observed | A 1500-byte datagram: on Linux `ReadFromUDP` copies the first 1220 bytes and reports n = 1220 without error, so `read` delivers a truncated 1220-byte payload | The buffer is one byte longer than maxBytes, so an oversize datagram is reported as such and dropped, as the check and the comment at conn.go:163-165 intend | medium; not executed | `Netcode.OversizeDeliveredTruncated` | `Netcode.ReadIntact` |

`Netcode.RelistenThenClosePanics` proves the panic for the as-written
`Listen`. `Netcode.RelistenFreshThenCloseSucceeds` proves that two
Listen/Close pairs succeed with `Netcode.ListenFresh`. `Server.Listen` uses
the as-written `Listen`. `Netcode.ListenAgreesWhenUnsignalled` proves that on
the new connection it opens, both listens behave the same.

For the second row, `Netcode.Read` models `read` as written, and
`Netcode.Deliver`, and with it the server and client ticks, uses it. The
downstream properties hold for any envelope contents, so they do not depend
on the fix. `Netcode.ReadIntactDropsOversize` proves the corrected read
delivers exactly the datagrams of 1..maxBytes bytes, whole.

## Left out

- Socket calls (`net.DialUDP`, `ListenUDP`, `ReadFromUDP`, `Write`, `WriteToUDP`, `Close` on the socket) are foreign operating-system I/O. Their outcomes are parameters. Only `ReadFromUDP`'s truncation is spelled out (`Netcode.OsReceive`, as on Linux). The socket's close error is the single error `OsCloseError`.
- A read loop started on a connection whose socket later becomes nil (after a failed re-dial) panics in its receiver task. That is concurrency and is not modelled.
- `LocalAddr` and `RemoteAddr` only forward to the socket. `create` hands the recorded buffer sizes to the socket (conn.go:142-143); that hand-over is I/O and is not modelled beyond the recorded sizes.
- Goroutines, channels, `select`, blocking when a queue is full, and the close broadcast are concurrency. Queues are plain sequences, drained in order, and their capacities are recorded but never fill. The close channel is a boolean.
- `Deliver` models reading and dispatch as one in-order pass. How reads interleave with ticks is not modelled.
- `sync.Pool` is runtime mechanics. The read buffer is a parameter of length maxBytes.
- `sync/atomic` atomicity is not modelled; the uint32 wrap-around is.
- `Server.Send` does not model the delivery or failure of the fire-and-forget `go s.conn.WriteTo` writes. Only the writes started and `sendCount` are modelled.
- `Server.NewServer` takes its capacity as a `nat`. In Go a negative `-num` reaches `NewServer` (main.go:53) and `make` panics on the negative length and capacity (server.go:35-36); that panic is not modelled.
- `Server.OnPacketData` and `Server.Send` use unbounded counters (the slot counters and `sendCount`). Go's `int` is 64 bits on 64-bit platforms, where overflow would need 2^63 datagrams; the 32-bit `int` of 32-bit platforms is not modelled.
- `Server.Update` and `Client.Update` use integer milliseconds. Float rounding of the source's `float64` times is not modelled.
- `Netcode.Dial` promises that a `Live` connection stays `Live` except when a dial fails on an open connection. In that case the code nils the socket while `isClosed` stays false, which `Netcode.FailedRedialPanics` exhibits. `Netcode.ListenFresh` has the same exception.
- `Netcode.Dial`: calling Dial on an already open connection leaves the old read loop running with no way to stop it. That leak is concurrency and is not modelled; the state change is.
- `Client.Update` returns a heartbeat flag instead of performing the write. `Client.SendHeartbeat` models the write, and its result is ignored as in the source.
- Logging and the unused `printed` field have no effect on state.
- main.go (flag parsing, the sleep-paced loops, the `WaitGroup`, the fixed payload fill) is process glue. Only its `MAX_PACKETS` constant and the globals `addr` and `runTime` are used. Both globals are parameters here: `addr` of the client's filter, `runTime` of the timeout sweep.

=== FILE: client.dfy ===
/**
 * The client of client.go: its tick (drain the queue, then perhaps send a
 * heartbeat) and the classification of datagrams into two counters.
 *
 * The counters are Go `uint32`s raised with `atomic.AddUint32`, so they wrap
 * at 2^32; the wrap is modelled. The address filter compares the client's
 * server address with the process-wide `addr` rather than with the sender;
 * it is modelled as written, with the global passed in as `globalAddr`.
 */
module Client {
  import opened Udp
  import Netcode

  const U32Modulus: int := 0x1_0000_0000
  newtype u32 = x: int | 0 <= x < 0x1_0000_0000

  /** `atomic.AddUint32(&x, 1)`: wraps from 2^32 - 1 to 0. */
  function Inc(x: u32): (r: u32)
    ensures x as int < U32Modulus - 1 ==> r as int == x as int + 1
    ensures x as int == U32Modulus - 1 ==> r == 0
  {
    ((x as int + 1) % U32Modulus) as u32
  }

  datatype ClientState = ClientState(
    serverAddr: Option<UdpAddr>,
    queueCapacity: nat,
    lastSendTime: int,
    payloadCount: u32,
    pingCount: u32)

  /** `NewClient`: both counters zero and a packet queue of `MAX_PACKETS`. */
  function NewClient(serverAddr: Option<UdpAddr>): (c: ClientState)
    ensures c.serverAddr == serverAddr
    ensures c.payloadCount == 0 && c.pingCount == 0 && c.lastSendTime == 0
    ensures c.queueCapacity == Netcode.MaxPackets
  {
    ClientState(serverAddr, Netcode.MaxPackets, 0, 0, 0)
  }

  /**
   * `Connect`: a new connection with the client's receive handler, dialled
   * to the server; `dialOk` is the operating system's answer.
   */
  function Connect(c: ClientState, dialOk: bool): (r: Netcode.OpenResult)
    ensures r.err.None? <==> dialOk
    ensures !dialOk ==> r.err == Some(Netcode.BindError) && r.conn.isClosed
    ensures dialOk ==> !r.conn.isClosed && Netcode.Live(r.conn)
    ensures r.conn.maxPackets == Netcode.MaxPackets && r.conn.maxBytes == Netcode.MaxPacketBytes
    ensures r.conn.handlerSet
  {
    Netcode.Dial(Netcode.SetRecvHandler(Netcode.NewNetcodeConn(), true), dialOk)
  }

  /** `PayloadCount`: the number of payloads the server sent, modulo 2^32. */
  function PayloadCount(c: ClientState): u32
  {
    c.payloadCount
  }

  /** `PingCount`: the number of pings the server sent, modulo 2^32. */
  function PingCount(c: ClientState): u32
  {
    c.pingCount
  }

  /** The address filter of `OnPacketData`, as written: the sender plays no part. */
  predicate FilterPasses(c: ClientState, globalAddr: Option<UdpAddr>)
  {
    AddressEqual(c.serverAddr, globalAddr)
  }

  /** `OnPacketData`: past the filter, a ping raises `pingCount` and anything else `payloadCount`. */
  function OnPacketData(c: ClientState, data: seq<byte>, from: Option<UdpAddr>,
                        globalAddr: Option<UdpAddr>): (r: ClientState)
    ensures r == c.(payloadCount := r.payloadCount, pingCount := r.pingCount)
    ensures !FilterPasses(c, globalAddr) ==> r == c
    ensures FilterPasses(c, globalAddr) && IsPing(data) ==>
              r.pingCount == Inc(c.pingCount) && r.payloadCount == c.payloadCount
    ensures FilterPasses(c, globalAddr) && !IsPing(data) ==>
              r.payloadCount == Inc(c.payloadCount) && r.pingCount == c.pingCount
  {
    if !AddressEqual(c.serverAddr, globalAddr) then c
    else if IsPing(data) then c.(pingCount := Inc(c.pingCount))
    else c.(payloadCount := Inc(c.payloadCount))
  }

  /** The sender's address never influences classification. */
  lemma SenderIgnored(c: ClientState, data: seq<byte>, f1: Option<UdpAddr>, f2: Option<UdpAddr>,
                      globalAddr: Option<UdpAddr>)
    ensures OnPacketData(c, data, f1, globalAddr) == OnPacketData(c, data, f2, globalAddr)
  {
  }

  /**
   * The drain loop of `Update`: every queued envelope, in order, through
   * `OnPacketData`. When the filter rejects, nothing is ever counted; past
   * it and short of wrap-around, every envelope raises exactly one counter.
   */
  function Drain(c: ClientState, queue: seq<Envelope>, globalAddr: Option<UdpAddr>): (r: ClientState)
    ensures r == c.(payloadCount := r.payloadCount, pingCount := r.pingCount)
    ensures !FilterPasses(c, globalAddr) ==> r == c
    ensures FilterPasses(c, globalAddr) && c.pingCount as int + |queue| < U32Modulus
              && c.payloadCount as int + |queue| < U32Modulus ==>
              && r.pingCount >= c.pingCount && r.payloadCount >= c.payloadCount
              && r.pingCount as int + r.payloadCount as int
                 == c.pingCount as int + c.payloadCount as int + |queue|
    decreases |queue|
  {
    if |queue| == 0 then c
    else Drain(OnPacketData(c, queue[0].data, queue[0].from, globalAddr), queue[1..], globalAddr)
  }

  /** An empty queue leaves the client as it is; a one-envelope queue is one `OnPacketData`. */
  lemma DrainOne(c: ClientState, e: Envelope, globalAddr: Option<UdpAddr>)
    ensures Drain(c, [], globalAddr) == c
    ensures Drain(c, [e], globalAddr) == OnPacketData(c, e.data, e.from, globalAddr)
  {
    assert [e][1..] == [];
  }

  /** Draining two batches is draining their concatenation: the queue is processed FIFO. */
  lemma {:induction false} DrainAppend(c: ClientState, q1: seq<Envelope>, q2: seq<Envelope>,
                                       globalAddr: Option<UdpAddr>)
    ensures Drain(c, q1 + q2, globalAddr) == Drain(Drain(c, q1, globalAddr), q2, globalAddr)
    decreases |q1|
  {
    if |q1| == 0 {
      assert q1 + q2 == q2;
    } else {
      assert (q1 + q2)[0] == q1[0];
      assert (q1 + q2)[1..] == q1[1..] + q2;
      DrainAppend(OnPacketData(c, q1[0].data, q1[0].from, globalAddr), q1[1..], q2, globalAddr);
    }
  }

  /** The number of heartbeats in a queue. */
  function CountPings(queue: seq<Envelope>): nat
  {
    if |queue| == 0 then 0
    else (if IsPing(queue[0].data) then 1 else 0) + CountPings(queue[1..])
  }

  lemma {:induction false} CountPingsBound(queue: seq<Envelope>)
    ensures CountPings(queue) <= |queue|
  {
    if |queue| > 0 {
      CountPingsBound(queue[1..]);
    }
  }

  /**
   * Past the filter and short of wrap-around, a drained queue adds its pings
   * to `pingCount` and everything else to `payloadCount`: each envelope is
   * counted exactly once, and the counters never decrease.
   */
  lemma {:induction false} DrainCounts(c: ClientState, queue: seq<Envelope>, globalAddr: Option<UdpAddr>)
    requires FilterPasses(c, globalAddr)
    requires c.pingCount as int + |queue| < U32Modulus
    requires c.payloadCount as int + |queue| < U32Modulus
    ensures CountPings(queue) <= |queue|
    ensures PingCount(Drain(c, queue, globalAddr)) as int == c.pingCount as int + CountPings(queue)
    ensures PayloadCount(Drain(c, queue, globalAddr)) as int ==
              c.payloadCount as int + |queue| - CountPings(queue)
    decreases |queue|
  {
    CountPingsBound(queue);
    if |queue| > 0 {
      var c1 := OnPacketData(c, queue[0].data, queue[0].from, globalAddr);
      DrainCounts(c1, queue[1..], globalAddr);
    }
  }

  /** Adding to a residue modulo 2^32 is adding before taking it. */
  lemma ModAdd(a: int, b: int)
    requires 0 <= a && 0 <= b
    ensures (a % U32Modulus + b) % U32Modulus == (a + b) % U32Modulus
  {
  }

  /**
   * Past the filter, for any queue, the getters report the number of pings
   * and of other datagrams drained, added to the starting counters modulo
   * 2^32: the counters are exact counts up to wrap-around.
   */
  lemma {:induction false} DrainCountsModular(c: ClientState, queue: seq<Envelope>, globalAddr: Option<UdpAddr>)
    requires FilterPasses(c, globalAddr)
    ensures CountPings(queue) <= |queue|
    ensures PingCount(Drain(c, queue, globalAddr)) as int
            == (c.pingCount as int + CountPings(queue)) % U32Modulus
    ensures PayloadCount(Drain(c, queue, globalAddr)) as int
            == (c.payloadCount as int + (|queue| - CountPings(queue))) % U32Modulus
    decreases |queue|
  {
    CountPingsBound(queue);
    if |queue| > 0 {
      var c1 := OnPacketData(c, queue[0].data, queue[0].from, globalAddr);
      DrainCountsModular(c1, queue[1..], globalAddr);
      CountPingsBound(queue[1..]);
      ModAdd(c.pingCount as int + 1, CountPings(queue[1..]));
      ModAdd(c.payloadCount as int + 1, |queue| - 1 - CountPings(queue[1..]));
    }
  }

  /** At 2^32 - 1 one more ping wraps the counter to zero. */
  lemma PingCounterWraps(c: ClientState, globalAddr: Option<UdpAddr>)
    requires FilterPasses(c, globalAddr) && c.pingCount as int == U32Modulus - 1
    ensures PingCount(OnPacketData(c, Ping, None, globalAddr)) == 0
  {
  }

  datatype Tick = Tick(client: ClientState, heartbeat: bool)

  /**
   * `Update`: drain the queue, then, if more than 100 ms have passed since
   * the last heartbeat, record the time and write a ping to the server.
   */
  function Update(c: ClientState, now: int, queue: seq<Envelope>, globalAddr: Option<UdpAddr>): (r: Tick)
    ensures r.heartbeat <==> c.lastSendTime + HeartbeatInterval < now
    ensures r.heartbeat ==> r.client.lastSendTime == now
    ensures !r.heartbeat ==> r.client.lastSendTime == c.lastSendTime
    ensures r.client.serverAddr == c.serverAddr && r.client.queueCapacity == c.queueCapacity
  {
    var drained := Drain(c, queue, globalAddr);
    if drained.lastSendTime + HeartbeatInterval < now then Tick(drained.(lastSendTime := now), true)
    else Tick(drained, false)
  }

  /** A tick's counters are exactly those left by draining its queue. */
  lemma UpdateCountsAreDrain(c: ClientState, now: int, queue: seq<Envelope>, globalAddr: Option<UdpAddr>)
    ensures PingCount(Update(c, now, queue, globalAddr).client) == PingCount(Drain(c, queue, globalAddr))
    ensures PayloadCount(Update(c, now, queue, globalAddr).client) == PayloadCount(Drain(c, queue, globalAddr))
  {
  }

  /**
   * `Send(ping)`, the heartbeat on the client's connection: a ping when the
   * connection is open, the closed-connection error when it is closed, and a
   * panic when a failed dial left it open without a socket.
   */
  function SendHeartbeat(conn: Netcode.NetcodeConn, os: Netcode.OsWriteOutcome): (r: Netcode.WriteResult)
    ensures !conn.isClosed && conn.socket != Netcode.NilSocket ==>
              r.WriteResult? && r.issued == Some(Netcode.OsWrite(Ping))
    ensures conn.isClosed ==> r == Netcode.WriteResult(-1, Some(Netcode.ClosedError), None)
    ensures r.WritePanicNilSocket? <==> !conn.isClosed && conn.socket == Netcode.NilSocket
  {
    Netcode.Write(conn, Ping, os)
  }
}

=== FILE: netcode.dfy ===
/**
 * The UDP connection wrapper of conn.go: its open/closed lifecycle, the
 * closed-connection check on writes, and the length filter the reader task
 * applies to every datagram before it is handed on.
 *
 * The socket's behaviour is not modelled: whatever the operating system
 * answers (whether a dial or bind succeeded, how many bytes a read produced,
 * what a write returned) is a parameter. What the wrapper holds is modelled:
 * `socket` says whether `c.conn` is nil, an open socket, or one already
 * closed, because Go panics when a method is called through a nil
 * `*net.UDPConn`. The close channel is the flag `closeSignalled`, true once
 * Go's `close(c.closeCh)` has run on the channel currently installed.
 */
module Netcode {
  import opened Udp

  /** `MAX_PACKETS` (main.go): default capacity of the in-flight packet queue. */
  const MaxPackets: int := 256
  /** `MAX_PACKET_BYTES`: largest datagram the reader accepts. */
  const MaxPacketBytes: int := 1220
  /** `SOCKET_RCVBUF_SIZE` and `SOCKET_SNDBUF_SIZE`: 1 MiB each. */
  const SocketBufSize: int := 1024 * 1024

  datatype ConnError =
    | ConfigError       // no receive handler registered before Dial/Listen
    | BindError         // the operating system refused to dial or bind
    | ClosedError       // write on a closed connection
    | OsWriteError      // the operating system's write failed
    | OsReadError       // the operating system's read failed
    | OsCloseError      // the socket had already been closed
    | EmptyDatagram     // a read returned 0 bytes
    | OversizeDatagram  // a read returned more than maxBytes

  /** What the field `conn` holds: nil, a socket in use, or a socket already closed. */
  datatype Socket = NilSocket | OpenSocket | ClosedSocket

  /**
   * `NetcodeConn`. `queueCapacity` is the capacity of the packet queue of
   * the read loop most recently started by `create` (0 before any).
   */
  datatype NetcodeConn = NetcodeConn(
    isClosed: bool,
    closeSignalled: bool,
    socket: Socket,
    maxBytes: int,
    maxPackets: int,
    recvSize: int,
    sendSize: int,
    handlerSet: bool,
    queueCapacity: int)

  /**
   * What must hold of an open connection for it to behave: it has a socket,
   * its close signal has not fired yet (otherwise both tasks exit at once
   * and a later Close closes the channel a second time), and its queue was
   * sized from the current `maxPackets`.
   */
  predicate Live(c: NetcodeConn)
  {
    !c.isClosed ==> c.socket == OpenSocket && !c.closeSignalled && c.queueCapacity == c.maxPackets
  }

  /** `NewNetcodeConn`: closed, no socket yet, fresh close signal, default limits, no handler. */
  function NewNetcodeConn(): (c: NetcodeConn)
    ensures c.isClosed && !c.closeSignalled && !c.handlerSet && c.socket == NilSocket
    ensures c.maxBytes == MaxPacketBytes && c.maxPackets == MaxPackets
    ensures c.recvSize == SocketBufSize && c.sendSize == SocketBufSize
    ensures Live(c)
  {
    NetcodeConn(true, false, NilSocket, MaxPacketBytes, MaxPackets, SocketBufSize, SocketBufSize, false, 0)
  }

  /** `SetMaxPackets`: takes effect only while the connection is closed. */
  function SetMaxPackets(c: NetcodeConn, max: int): (r: NetcodeConn)
    ensures !c.isClosed ==> r == c
    ensures c.isClosed ==> r.maxPackets == max && r == c.(maxPackets := r.maxPackets)
    ensures Live(c) ==> Live(r)
  {
    if !c.isClosed then c else c.(maxPackets := max)
  }

  /** `SetRecvHandler`; `installed` is false when Go's nil function is passed. */
  function SetRecvHandler(c: NetcodeConn, installed: bool): (r: NetcodeConn)
    ensures r.handlerSet == installed && r == c.(handlerSet := r.handlerSet)
    ensures Live(c) ==> Live(r)
  {
    c.(handlerSet := installed)
  }

  /**
   * `SetReadBuffer`: only records the size. The socket receives it from
   * `create`, so on an open connection it takes effect at the next open.
   */
  function SetReadBuffer(c: NetcodeConn, bytes: int): (r: NetcodeConn)
    ensures r.recvSize == bytes && r == c.(recvSize := r.recvSize)
    ensures Live(c) ==> Live(r)
  {
    c.(recvSize := bytes)
  }

  /** `SetWriteBuffer`: only records the size, like `SetReadBuffer`. */
  function SetWriteBuffer(c: NetcodeConn, bytes: int): (r: NetcodeConn)
    ensures r.sendSize == bytes && r == c.(sendSize := r.sendSize)
    ensures Live(c) ==> Live(r)
  {
    c.(sendSize := bytes)
  }

  /** The system call a write hands to the operating system. */
  datatype OsCall = OsWrite(data: seq<byte>) | OsWriteTo(data: seq<byte>, to: Option<UdpAddr>)

  /** The operating system's answer to a write: a byte count, and whether it failed. */
  datatype OsWriteOutcome = OsWriteOutcome(n: int, failed: bool)

  /**
   * What `Write`/`WriteTo` return and the system call they issued, if any;
   * or the panic of a write through a nil socket.
   */
  datatype WriteResult =
    | WriteResult(n: int, err: Option<ConnError>, issued: Option<OsCall>)
    | WritePanicNilSocket

  /** `Write` on a connected socket. */
  function Write(c: NetcodeConn, b: seq<byte>, os: OsWriteOutcome): (r: WriteResult)
    ensures c.isClosed <==> r == WriteResult(-1, Some(ClosedError), None)
    ensures r.WritePanicNilSocket? <==> !c.isClosed && c.socket == NilSocket
    ensures !c.isClosed && c.socket != NilSocket ==>
              && r.WriteResult?
              && r.issued == Some(OsWrite(b))
              && r.n == os.n
              && (r.err.Some? <==> os.failed)
              && r.err != Some(ClosedError)
    ensures Live(c) ==> r.WriteResult?
  {
    if c.isClosed then WriteResult(-1, Some(ClosedError), None)
    else if c.socket == NilSocket then WritePanicNilSocket
    else WriteResult(os.n, if os.failed then Some(OsWriteError) else None, Some(OsWrite(b)))
  }

  /** `WriteTo`: the same check, addressed to `to`. */
  function WriteTo(c: NetcodeConn, b: seq<byte>, to: Option<UdpAddr>, os: OsWriteOutcome): (r: WriteResult)
    ensures c.isClosed <==> r == WriteResult(-1, Some(ClosedError), None)
    ensures r.WritePanicNilSocket? <==> !c.isClosed && c.socket == NilSocket
    ensures !c.isClosed && c.socket != NilSocket ==>
              && r.WriteResult?
              && r.issued == Some(OsWriteTo(b, to))
              && r.n == os.n
              && (r.err.Some? <==> os.failed)
              && r.err != Some(ClosedError)
    ensures Live(c) ==> r.WriteResult?
  {
    if c.isClosed then WriteResult(-1, Some(ClosedError), None)
    else if c.socket == NilSocket then WritePanicNilSocket
    else WriteResult(os.n, if os.failed then Some(OsWriteError) else None, Some(OsWriteTo(b, to)))
  }

  /**
   * Outcome of `Close`: the connection afterwards, whether this call closed
   * the channel, and the socket's own error; or one of Go's two panics,
   * `close` of a channel already closed and a call through a nil socket.
   */
  datatype CloseResult =
    | Closed(conn: NetcodeConn, fired: bool, err: Option<ConnError>)
    | PanicCloseOfClosedChannel
    | PanicNilSocket

  /**
   * `Close`: signals the tasks only if the connection was open, marks it
   * closed, then closes the socket.
   */
  function Close(c: NetcodeConn): (r: CloseResult)
    ensures !c.isClosed && c.closeSignalled ==> r == PanicCloseOfClosedChannel
    ensures (c.isClosed || !c.closeSignalled) && c.socket == NilSocket ==> r == PanicNilSocket
    ensures (c.isClosed || !c.closeSignalled) && c.socket != NilSocket ==>
              && r.Closed?
              && r.fired == !c.isClosed
              && r.conn == c.(isClosed := true, closeSignalled := c.closeSignalled || r.fired,
                              socket := ClosedSocket)
              && (r.err.Some? <==> c.socket == ClosedSocket)
    ensures Live(c) && c.socket != NilSocket ==> r.Closed?
    ensures r.Closed? ==>
              Live(r.conn) && r.conn.isClosed && r.conn.closeSignalled == (c.closeSignalled || r.fired)
  {
    if !c.isClosed && c.closeSignalled then PanicCloseOfClosedChannel
    else if c.socket == NilSocket then PanicNilSocket
    else
      Closed(c.(isClosed := true, closeSignalled := c.closeSignalled || !c.isClosed, socket := ClosedSocket),
             !c.isClosed,
             if c.socket == ClosedSocket then Some(OsCloseError) else None)
  }

  /** A second `Close` changes nothing and signals nothing; only the socket reports an error. */
  lemma CloseIdempotent(c: NetcodeConn)
    requires Close(c).Closed?
    ensures Close(Close(c).conn) == Closed(Close(c).conn, false, Some(OsCloseError))
  {
  }

  /** Closing a connection that was never opened dereferences the nil socket. */
  lemma CloseBeforeOpenPanics()
    ensures Close(NewNetcodeConn()) == PanicNilSocket
    ensures Close(SetRecvHandler(NewNetcodeConn(), true)) == PanicNilSocket
  {
  }

  /** The connection and the error returned by `Dial`/`Listen`. */
  datatype OpenResult = OpenResult(conn: NetcodeConn, err: Option<ConnError>)

  /**
   * `create`: marks the connection open and starts a read loop whose queue
   * holds `maxPackets`. The loop behaves exactly when the socket is there and
   * the installed close signal has not fired.
   */
  function Create(c: NetcodeConn): (r: NetcodeConn)
    ensures !r.isClosed && r.queueCapacity == c.maxPackets
    ensures r == c.(isClosed := false, queueCapacity := r.queueCapacity)
    ensures Live(r) <==> c.socket == OpenSocket && !c.closeSignalled
  {
    c.(isClosed := false, queueCapacity := c.maxPackets)
  }

  /**
   * `Dial`. Without a handler nothing happens. Otherwise a fresh close
   * channel is installed before dialling, so it is fresh even when the dial
   * then fails; a failed dial leaves the socket nil. `dialOk` is the
   * operating system's answer.
   */
  function Dial(c: NetcodeConn, dialOk: bool): (r: OpenResult)
    ensures !c.handlerSet ==> r == OpenResult(c, Some(ConfigError))
    ensures c.handlerSet && !dialOk ==>
              r == OpenResult(c.(closeSignalled := false, socket := NilSocket), Some(BindError))
    ensures r.err.None? <==> c.handlerSet && dialOk
    ensures r.err.None? ==> !r.conn.isClosed && Live(r.conn)
    ensures r.err.None? ==>
              r.conn == c.(isClosed := false, closeSignalled := false, socket := OpenSocket,
                           queueCapacity := c.maxPackets)
    ensures r.conn.isClosed == (c.isClosed && r.err.Some?)
    ensures r.conn.maxPackets == c.maxPackets && r.conn.maxBytes == c.maxBytes
    ensures Live(c) && (c.isClosed || r.err != Some(BindError)) ==> Live(r.conn)
  {
    if !c.handlerSet then OpenResult(c, Some(ConfigError))
    else
      var c1 := c.(closeSignalled := false);
      if !dialOk then OpenResult(c1.(socket := NilSocket), Some(BindError))
      else OpenResult(Create(c1.(socket := OpenSocket)), None)
  }

  /**
   * A failed re-dial of an open connection nils its socket while leaving it
   * marked open: the next write and the next Close panic.
   */
  lemma FailedRedialPanics(c: NetcodeConn, b: seq<byte>, os: OsWriteOutcome)
    requires !c.isClosed && c.handlerSet
    ensures Dial(c, false).err == Some(BindError)
    ensures Write(Dial(c, false).conn, b, os) == WritePanicNilSocket
    ensures Close(Dial(c, false).conn) == PanicNilSocket
  {
  }

  /**
   * `Listen`, as written: unlike `Dial` it keeps whatever close channel is
   * installed, so after a `Close` the reopened connection carries a close
   * signal that has already fired.
   */
  function Listen(c: NetcodeConn, listenOk: bool): (r: OpenResult)
    ensures !c.handlerSet ==> r == OpenResult(c, Some(ConfigError))
    ensures c.handlerSet && !listenOk ==> r == OpenResult(c.(socket := NilSocket), Some(BindError))
    ensures r.err.None? <==> c.handlerSet && listenOk
    ensures r.err.None? ==>
              !r.conn.isClosed && r.conn.socket == OpenSocket && r.conn.queueCapacity == c.maxPackets
    ensures r.err.None? ==>
              r.conn == c.(isClosed := false, socket := OpenSocket, queueCapacity := c.maxPackets)
    ensures r.conn.closeSignalled == c.closeSignalled
  {
    if !c.handlerSet then OpenResult(c, Some(ConfigError))
    else if !listenOk then OpenResult(c.(socket := NilSocket), Some(BindError))
    else OpenResult(Create(c.(socket := OpenSocket)), None)
  }

  /** Listen, Close, Listen on one connection: the second Close panics. */
  lemma RelistenThenClosePanics()
    ensures
      var c0 := SetRecvHandler(NewNetcodeConn(), true);
      var c1 := Listen(c0, true).conn;
      var c2 := Close(c1);
      c2.Closed? &&
      var c3 := Listen(c2.conn, true);
      c3.err.None? && !Live(c3.conn) && Close(c3.conn) == PanicCloseOfClosedChannel
  {
  }

  /**
   * `Listen` as evidently intended: like `Dial`, it installs a fresh close
   * channel, so every successful open yields a live connection.
   */
  function ListenFresh(c: NetcodeConn, listenOk: bool): (r: OpenResult)
    ensures !c.handlerSet ==> r == OpenResult(c, Some(ConfigError))
    ensures c.handlerSet && !listenOk ==> r == OpenResult(c.(socket := NilSocket), Some(BindError))
    ensures r.err.None? <==> c.handlerSet && listenOk
    ensures r.err.None? ==> !r.conn.isClosed && Live(r.conn)
    ensures r.err.None? ==>
              r.conn == c.(isClosed := false, closeSignalled := false, socket := OpenSocket,
                           queueCapacity := c.maxPackets)
    ensures r.conn.maxPackets == c.maxPackets && r.conn.maxBytes == c.maxBytes
    ensures Live(c) && (c.isClosed || r.err != Some(BindError)) ==> Live(r.conn)
  {
    if !c.handlerSet then OpenResult(c, Some(ConfigError))
    else if !listenOk then OpenResult(c.(socket := NilSocket), Some(BindError))
    else OpenResult(Create(c.(closeSignalled := false, socket := OpenSocket)), None)
  }

  /** With the fresh listen, two Listen/Close pairs on one connection each signal once and never panic. */
  lemma RelistenFreshThenCloseSucceeds(c: NetcodeConn)
    requires Live(c) && c.handlerSet
    ensures
      var c1 := ListenFresh(c, true).conn;
      var c2 := Close(c1);
      c2.Closed? && c2.fired &&
      var c3 := ListenFresh(c2.conn, true).conn;
      Live(c3) && Close(c3).Closed? && Close(c3).fired
  {
  }

  /**
   * One step of any run of corrected Listen/Close pairs: from a live
   * connection with a handler, the pair signals exactly once and leaves a
   * live, closed connection that still has its handler, so the next pair
   * starts from the same condition.
   */
  lemma ListenFreshCloseStep(c: NetcodeConn)
    requires Live(c) && c.handlerSet
    ensures ListenFresh(c, true).err.None?
    ensures Close(ListenFresh(c, true).conn).Closed?
    ensures Close(ListenFresh(c, true).conn).fired
    ensures Live(Close(ListenFresh(c, true).conn).conn)
    ensures Close(ListenFresh(c, true).conn).conn.handlerSet
  {
  }

  /** On a connection whose close signal has not fired, both listens agree. */
  lemma ListenAgreesWhenUnsignalled(c: NetcodeConn, listenOk: bool)
    requires !c.closeSignalled
    ensures Listen(c, listenOk) == ListenFresh(c, listenOk)
  {
  }

  /** The operating system's answer to one `ReadFromUDP`. */
  datatype OsReadOutcome = OsReadFailed | OsReceived(n: nat, from: Option<UdpAddr>)

  /** One read: the operating system's answer and the buffer contents afterwards. */
  datatype RawRead = RawRead(outcome: OsReadOutcome, buf: seq<byte>)

  /** A read never reports more bytes than the buffer it was given holds. */
  predicate Fits(raw: RawRead)
  {
    raw.outcome.OsReceived? ==> raw.outcome.n <= |raw.buf|
  }

  datatype ReadResult = Delivered(env: Envelope) | Rejected(err: ConnError)

  /**
   * The checks `read` applies to a read against the limit `limit`: an error
   * is passed on, 0 bytes and more than `limit` bytes are rejected, and
   * otherwise the envelope holds the first `n` bytes of the buffer and the
   * sender.
   */
  function Filter(limit: int, raw: RawRead): (r: ReadResult)
    requires Fits(raw)
    ensures raw.outcome.OsReadFailed? ==> r == Rejected(OsReadError)
    ensures raw.outcome.OsReceived? ==> (r.Delivered? <==> 0 < raw.outcome.n <= limit)
    ensures r.Delivered? ==>
              && raw.outcome.OsReceived?
              && |r.env.data| == raw.outcome.n
              && r.env.data <= raw.buf
              && r.env.from == raw.outcome.from
    ensures r == Rejected(EmptyDatagram) <==> raw.outcome.OsReceived? && raw.outcome.n == 0
    ensures r == Rejected(OversizeDatagram) <==>
              raw.outcome.OsReceived? && 0 < raw.outcome.n && raw.outcome.n > limit
  {
    match raw.outcome
    case OsReadFailed => Rejected(OsReadError)
    case OsReceived(n, from) =>
      if n == 0 then Rejected(EmptyDatagram)
      else if n > limit then Rejected(OversizeDatagram)
      else Delivered(Envelope(raw.buf[..n], from))
  }

  /**
   * `read`, as written: the buffer is the pool buffer cut to `maxBytes`, so
   * the read can never report more than `maxBytes` and the oversize check
   * never fires.
   */
  function Read(c: NetcodeConn, raw: RawRead): (r: ReadResult)
    requires |raw.buf| == c.maxBytes && Fits(raw)
    ensures raw.outcome.OsReadFailed? ==> r == Rejected(OsReadError)
    ensures raw.outcome.OsReceived? ==> (r.Delivered? <==> 0 < raw.outcome.n)
    ensures r.Delivered? ==>
              && raw.outcome.OsReceived?
              && |r.env.data| == raw.outcome.n <= c.maxBytes
              && r.env.data <= raw.buf
              && r.env.from == raw.outcome.from
    ensures r == Rejected(EmptyDatagram) <==> raw.outcome.OsReceived? && raw.outcome.n == 0
    ensures r != Rejected(OversizeDatagram)
  {
    Filter(c.maxBytes, raw)
  }

  /** A datagram as it travels on the network: its whole payload and its sender. */
  datatype Datagram = Datagram(payload: seq<byte>, from: Option<UdpAddr>)

  /**
   * `ReadFromUDP` of one datagram into a buffer whose previous contents are
   * `stale`, as Linux does it: as much of the payload as fits is copied, the
   * count copied is reported, and the rest is discarded without an error.
   */
  function OsReceive(d: Datagram, stale: seq<byte>): (r: RawRead)
    ensures Fits(r) && |r.buf| == |stale|
    ensures r.outcome == OsReceived(if |d.payload| <= |stale| then |d.payload| else |stale|, d.from)
    ensures r.buf[..r.outcome.n] == d.payload[..r.outcome.n]
  {
    var n := if |d.payload| <= |stale| then |d.payload| else |stale|;
    RawRead(OsReceived(n, d.from), d.payload[..n] + stale[n..])
  }

  /**
   * As written, a datagram longer than `maxBytes` is not rejected: it is
   * delivered cut to its first `maxBytes` bytes.
   */
  lemma OversizeDeliveredTruncated(c: NetcodeConn, d: Datagram, stale: seq<byte>)
    requires |stale| == c.maxBytes && 0 < c.maxBytes < |d.payload|
    ensures Read(c, OsReceive(d, stale)) == Delivered(Envelope(d.payload[..c.maxBytes], d.from))
    ensures Read(c, OsReceive(d, stale)).env.data != d.payload
  {
  }

  /**
   * `read` as evidently intended: the buffer is one byte longer than
   * `maxBytes`, so a read of more than `maxBytes` bytes can be seen, and
   * rejected, by the same checks.
   */
  function ReadIntact(c: NetcodeConn, raw: RawRead): (r: ReadResult)
    requires |raw.buf| == c.maxBytes + 1 && Fits(raw)
    ensures raw.outcome.OsReadFailed? ==> r == Rejected(OsReadError)
    ensures raw.outcome.OsReceived? ==> (r.Delivered? <==> 0 < raw.outcome.n <= c.maxBytes)
    ensures r.Delivered? ==>
              && raw.outcome.OsReceived?
              && |r.env.data| == raw.outcome.n
              && r.env.data <= raw.buf
              && r.env.from == raw.outcome.from
    ensures r == Rejected(OversizeDatagram) <==>
              raw.outcome.OsReceived? && 0 < raw.outcome.n && raw.outcome.n > c.maxBytes
  {
    Filter(c.maxBytes, raw)
  }

  /**
   * With the spare byte, a datagram is delivered exactly when its length is
   * in 1..maxBytes, and then whole and unaltered; a longer one is rejected.
   */
  lemma ReadIntactDropsOversize(c: NetcodeConn, d: Datagram, stale: seq<byte>)
    requires 0 <= c.maxBytes && |stale| == c.maxBytes + 1
    ensures ReadIntact(c, OsReceive(d, stale)).Delivered? <==> 0 < |d.payload| <= c.maxBytes
    ensures ReadIntact(c, OsReceive(d, stale)).Delivered? ==>
              ReadIntact(c, OsReceive(d, stale)).env == Envelope(d.payload, d.from)
    ensures |d.payload| > c.maxBytes ==> ReadIntact(c, OsReceive(d, stale)) == Rejected(OversizeDatagram)
  {
    var raw := OsReceive(d, stale);
    if ReadIntact(c, raw).Delivered? {
      assert raw.outcome.n == |d.payload|;
      assert d.payload[..|d.payload|] == d.payload;
    }
  }

  predicate BuffersSized(c: NetcodeConn, inbound: seq<RawRead>)
  {
    forall i :: 0 <= i < |inbound| ==> |inbound[i].buf| == c.maxBytes && Fits(inbound[i])
  }

  /** Whether a read passes the length filter. */
  predicate Accepted(c: NetcodeConn, raw: RawRead)
  {
    raw.outcome.OsReceived? && 0 < raw.outcome.n <= c.maxBytes
  }

  function CountAccepted(c: NetcodeConn, inbound: seq<RawRead>): nat
  {
    if |inbound| == 0 then 0
    else (if Accepted(c, inbound[0]) then 1 else 0) + CountAccepted(c, inbound[1..])
  }

  /**
   * The reader and dispatch tasks together (`receiver`, `readLoop`): every
   * read that passes the filter is queued and handed to the receive handler,
   * one envelope per read, in arrival order; rejected reads are logged and
   * skipped.
   */
  function Deliver(c: NetcodeConn, inbound: seq<RawRead>): (r: seq<Envelope>)
    requires BuffersSized(c, inbound)
    ensures |r| == CountAccepted(c, inbound)
    ensures forall k :: 0 <= k < |r| ==> 0 < |r[k].data| <= c.maxBytes
  {
    if |inbound| == 0 then []
    else
      var rest := Deliver(c, inbound[1..]);
      match Read(c, inbound[0])
      case Delivered(e) => [e] + rest
      case Rejected(_) => rest
  }

  /** One read is handed on as the envelope `read` made of it when it passes the filter, and dropped otherwise. */
  lemma DeliverOne(c: NetcodeConn, raw: RawRead)
    requires |raw.buf| == c.maxBytes && Fits(raw)
    ensures BuffersSized(c, [raw])
    ensures Accepted(c, raw) ==> Deliver(c, [raw]) == [Read(c, raw).env]
    ensures !Accepted(c, raw) ==> Deliver(c, [raw]) == []
  {
    assert [raw][1..] == [];
  }

  /** Delivery is in order: the envelopes of a longer run of reads extend those of a prefix. */
  lemma {:induction false} DeliverAppend(c: NetcodeConn, a: seq<RawRead>, b: seq<RawRead>)
    requires BuffersSized(c, a) && BuffersSized(c, b)
    ensures BuffersSized(c, a + b)
    ensures Deliver(c, a + b) == Deliver(c, a) + Deliver(c, b)
  {
    if |a| == 0 {
      assert a + b == b;
    } else {
      assert (a + b)[1..] == a[1..] + b;
      DeliverAppend(c, a[1..], b);
    }
  }

  /** Every sender reported by a successful receive. */
  predicate SendersReported(inbound: seq<RawRead>)
  {
    forall i :: 0 <= i < |inbound| && inbound[i].outcome.OsReceived? ==> inbound[i].outcome.from.Some?
  }

  /** The envelopes handed on carry only senders the operating system reported. */
  lemma {:induction false} DeliverSenders(c: NetcodeConn, inbound: seq<RawRead>)
    requires BuffersSized(c, inbound) && SendersReported(inbound)
    ensures forall k :: 0 <= k < |Deliver(c, inbound)| ==> Deliver(c, inbound)[k].from.Some?
  {
    if |inbound| > 0 {
      assert BuffersSized(c, inbound[1..]);
      DeliverSenders(c, inbound[1..]);
    }
  }
}

=== FILE: server.dfy ===
/**
 * The server of server.go: a fixed-capacity table of client slots keyed by
 * UDP address, the classification of each inbound datagram as a ping or a
 * payload, the timeout sweep that frees idle slots, the heartbeat broadcast,
 * and the per-tick `Update` that ties them together.
 *
 * Times are integer milliseconds: the 0.1 s heartbeat interval is 100 and
 * the eviction threshold `runTime + 1.0` s is `runTime + 1000`, with
 * `runTime` passed in rather than read from a global.
 */
module Server {
  import opened Udp
  import Netcode

  /** The grace added to the run time before an idle client is evicted, 1.0 s. */
  const TimeoutGrace: int := 1000

  /** `clientInstance`; a slot whose address is nil is free. */
  datatype ClientInstance = ClientInstance(
    address: Option<UdpAddr>,
    lastRecvTime: int,
    payloadCount: nat,
    pingCount: nat)

  /** The zero value of `clientInstance`: what allocation and eviction leave behind. */
  const FreeSlot: ClientInstance := ClientInstance(None, 0, 0, 0)

  predicate IsFree(c: ClientInstance)
  {
    c.address.None?
  }

  /** The lookup test of `OnPacketData`: an occupied slot holding `addr`. */
  predicate Matches(c: ClientInstance, addr: Option<UdpAddr>)
  {
    c.address.Some? && AddressEqual(c.address, addr)
  }

  datatype ServerState = ServerState(
    addr: Option<UdpAddr>,
    maxClients: nat,
    queueCapacity: nat,
    clients: seq<ClientInstance>,
    lastSendTime: int,
    serverTime: int,
    sendCount: nat)

  // ---------------------------------------------------------------------
  // Table invariants
  // ---------------------------------------------------------------------

  /** No two slots hold equal addresses (free slots hold none). */
  predicate Unique(cs: seq<ClientInstance>)
  {
    forall i, j :: 0 <= i < |cs| && 0 <= j < |cs| && i != j ==>
      !AddressEqual(cs[i].address, cs[j].address)
  }

  /** Every free slot is the zero value. */
  predicate FreeClean(cs: seq<ClientInstance>)
  {
    forall i :: 0 <= i < |cs| && IsFree(cs[i]) ==> cs[i] == FreeSlot
  }

  predicate WellFormed(s: ServerState)
  {
    |s.clients| == s.maxClients && Unique(s.clients) && FreeClean(s.clients)
  }

  /** `i` is the lowest index whose slot holds `addr`. */
  predicate FirstMatching(cs: seq<ClientInstance>, addr: Option<UdpAddr>, i: int)
  {
    0 <= i < |cs| && Matches(cs[i], addr) && forall j :: 0 <= j < i ==> !Matches(cs[j], addr)
  }

  predicate NoneMatching(cs: seq<ClientInstance>, addr: Option<UdpAddr>)
  {
    forall j :: 0 <= j < |cs| ==> !Matches(cs[j], addr)
  }

  /** `i` is the lowest free index. */
  predicate FirstFreeAt(cs: seq<ClientInstance>, i: int)
  {
    0 <= i < |cs| && IsFree(cs[i]) && forall j :: 0 <= j < i ==> !IsFree(cs[j])
  }

  predicate NoneFree(cs: seq<ClientInstance>)
  {
    forall j :: 0 <= j < |cs| ==> !IsFree(cs[j])
  }

  // ---------------------------------------------------------------------
  // Construction
  // ---------------------------------------------------------------------

  /** `NewServer`: `maxClients` zero-valued slots and a packet queue sized for them. */
  function NewServer(maxClients: nat, addr: Option<UdpAddr>): (s: ServerState)
    ensures |s.clients| == maxClients
    ensures forall i :: 0 <= i < |s.clients| ==> s.clients[i] == FreeSlot
    ensures s.queueCapacity == maxClients * Netcode.MaxPackets * 2
    ensures s.addr == addr && s.maxClients == maxClients
    ensures s.sendCount == 0 && s.lastSendTime == 0 && s.serverTime == 0
    ensures WellFormed(s)
  {
    ServerState(addr, maxClients, maxClients * Netcode.MaxPackets * 2,
                seq(maxClients, _ => FreeSlot), 0, 0, 0)
  }

  /**
   * `Server.Listen`: a new connection with the server's receive handler and
   * a queue limit of twice `MAX_PACKETS` per client, bound to the server
   * address. The connection is new, so its close signal has not fired and
   * the listen as written yields a live connection.
   */
  function Listen(s: ServerState, listenOk: bool): (r: Netcode.OpenResult)
    ensures r.err.None? <==> listenOk
    ensures !listenOk ==> r.err == Some(Netcode.BindError) && r.conn.isClosed
    ensures listenOk ==> !r.conn.isClosed && Netcode.Live(r.conn)
    ensures r.conn.maxPackets == s.maxClients * Netcode.MaxPackets * 2
    ensures r.conn.maxBytes == Netcode.MaxPacketBytes
    ensures r.conn.handlerSet
  {
    var c := Netcode.NewNetcodeConn();
    var c1 := Netcode.SetRecvHandler(c, true);
    var c2 := Netcode.SetMaxPackets(c1, s.maxClients * Netcode.MaxPackets * 2);
    Netcode.ListenAgreesWhenUnsignalled(c2, listenOk);
    Netcode.Listen(c2, listenOk)
  }

  // ---------------------------------------------------------------------
  // Lookup and allocation
  // ---------------------------------------------------------------------

  /** The first loop of `OnPacketData`: scan in index order for the slot holding `addr`. */
  function FindClient(cs: seq<ClientInstance>, addr: Option<UdpAddr>): (r: Option<nat>)
    ensures r.Some? ==> FirstMatching(cs, addr, r.value)
    ensures r.None? <==> NoneMatching(cs, addr)
  {
    if |cs| == 0 then None
    else if Matches(cs[0], addr) then Some(0)
    else
      match FindClient(cs[1..], addr)
      case None => None
      case Some(i) => Some(i + 1)
  }

  /** The second loop of `OnPacketData`: scan in index order for a free slot. */
  function FindFree(cs: seq<ClientInstance>): (r: Option<nat>)
    ensures r.Some? ==> FirstFreeAt(cs, r.value)
    ensures r.None? <==> NoneFree(cs)
  {
    if |cs| == 0 then None
    else if IsFree(cs[0]) then Some(0)
    else
      match FindFree(cs[1..])
      case None => None
      case Some(i) => Some(i + 1)
  }

  /** A datagram recorded against a slot: the receive time refreshed and one counter raised. */
  function Record(c: ClientInstance, data: seq<byte>, now: int): (r: ClientInstance)
    ensures r.address == c.address && r.lastRecvTime == now
    ensures IsPing(data) ==> r.pingCount == c.pingCount + 1 && r.payloadCount == c.payloadCount
    ensures !IsPing(data) ==> r.payloadCount == c.payloadCount + 1 && r.pingCount == c.pingCount
  {
    if IsPing(data) then c.(lastRecvTime := now, pingCount := c.pingCount + 1)
    else c.(lastRecvTime := now, payloadCount := c.payloadCount + 1)
  }

  /**
   * `OnPacketData`: a known sender's first slot is refreshed; otherwise the
   * first free slot is claimed; with neither, the datagram is dropped.
   */
  function OnPacketData(s: ServerState, data: seq<byte>, addr: Option<UdpAddr>): (r: ServerState)
    ensures r == s.(clients := r.clients) && |r.clients| == |s.clients|
    ensures forall i | FirstMatching(s.clients, addr, i) ::
              r.clients == s.clients[i := Record(s.clients[i], data, s.serverTime)]
    ensures NoneMatching(s.clients, addr) ==>
              forall k | FirstFreeAt(s.clients, k) ::
                r.clients == s.clients[k := Record(s.clients[k].(address := addr), data, s.serverTime)]
    ensures NoneMatching(s.clients, addr) && NoneFree(s.clients) ==> r == s
    ensures forall i :: 0 <= i < |r.clients| ==>
              r.clients[i].pingCount >= s.clients[i].pingCount &&
              r.clients[i].payloadCount >= s.clients[i].payloadCount
  {
    match FindClient(s.clients, addr)
    case Some(i) =>
      s.(clients := s.clients[i := Record(s.clients[i], data, s.serverTime)])
    case None =>
      match FindFree(s.clients)
      case Some(k) =>
        s.(clients := s.clients[k := Record(s.clients[k].(address := addr), data, s.serverTime)])
      case None => s
  }

  /** In a well-formed table a new sender's slot starts with exactly one counter at 1. */
  lemma OnPacketDataClaimsClean(s: ServerState, data: seq<byte>, addr: Option<UdpAddr>, k: int)
    requires FreeClean(s.clients)
    requires NoneMatching(s.clients, addr) && FirstFreeAt(s.clients, k)
    ensures OnPacketData(s, data, addr).clients[k] ==
              ClientInstance(addr, s.serverTime,
                             if IsPing(data) then 0 else 1,
                             if IsPing(data) then 1 else 0)
  {
  }

  /**
   * `OnPacketData` keeps every address unique, for any sender: a nil sender
   * claims a slot but leaves its address nil, which matches nothing.
   */
  lemma OnPacketDataPreservesUnique(s: ServerState, data: seq<byte>, addr: Option<UdpAddr>)
    requires Unique(s.clients)
    ensures Unique(OnPacketData(s, data, addr).clients)
  {
    var cs := s.clients;
    var r := OnPacketData(s, data, addr).clients;
    if FindClient(cs, addr).None? {
      match FindFree(cs)
      case None =>
      case Some(k) =>
        forall i, j | 0 <= i < |r| && 0 <= j < |r| && i != j
          ensures !AddressEqual(r[i].address, r[j].address)
        {
          if i == k {
            AddressEqualProperties(cs[j].address, addr);
          } else if j == k {
            assert !Matches(cs[i], addr);
          }
        }
    }
  }

  /** `OnPacketData` keeps free slots zeroed when the sender is not nil. */
  lemma OnPacketDataPreservesFreeClean(s: ServerState, data: seq<byte>, addr: Option<UdpAddr>)
    requires FreeClean(s.clients) && addr.Some?
    ensures FreeClean(OnPacketData(s, data, addr).clients)
  {
  }

  /** With a nil sender, as written, a free slot is "claimed" but stays free with a counter raised. */
  lemma NilSenderDirtiesFreeSlot()
    ensures
      var s := NewServer(1, None);
      var r := OnPacketData(s, Ping, None);
      IsFree(r.clients[0]) && r.clients[0].pingCount == 1 && !FreeClean(r.clients)
  {
    var s := NewServer(1, None);
    assert FirstFreeAt(s.clients, 0);
  }

  // ---------------------------------------------------------------------
  // Timeouts
  // ---------------------------------------------------------------------

  /** The eviction test of `checkTimeouts`, strict: `lastRecvTime + runTime + 1 s < now`. */
  predicate TimedOut(c: ClientInstance, now: int, runTime: int)
  {
    c.address.Some? && c.lastRecvTime + runTime + TimeoutGrace < now
  }

  /** `checkTimeouts`: every timed-out slot is reset to the zero value; others are untouched. */
  function CheckTimeouts(cs: seq<ClientInstance>, now: int, runTime: int): (r: seq<ClientInstance>)
    ensures |r| == |cs|
    ensures forall i :: 0 <= i < |cs| && TimedOut(cs[i], now, runTime) ==> r[i] == FreeSlot
    ensures forall i :: 0 <= i < |cs| && !TimedOut(cs[i], now, runTime) ==> r[i] == cs[i]
    ensures forall i :: 0 <= i < |r| && r[i].address.Some? ==>
              now <= r[i].lastRecvTime + runTime + TimeoutGrace
    ensures Unique(cs) ==> Unique(r)
    ensures FreeClean(cs) ==> FreeClean(r)
  {
    seq(|cs|, i requires 0 <= i < |cs| =>
          if TimedOut(cs[i], now, runTime) then FreeSlot else cs[i])
  }

  /** A second sweep at the same instant evicts nothing more. */
  lemma CheckTimeoutsIdempotent(cs: seq<ClientInstance>, now: int, runTime: int)
    ensures CheckTimeouts(CheckTimeouts(cs, now, runTime), now, runTime) == CheckTimeouts(cs, now, runTime)
  {
  }

  /**
   * Eviction timing: a slot that last heard from its client at `t` survives
   * every sweep up to and including `t + runTime + 1 s`, and the first sweep
   * after that frees it.
   */
  lemma EvictionTiming(cs: seq<ClientInstance>, i: int, now: int, runTime: int)
    requires 0 <= i < |cs| && cs[i].address.Some?
    ensures now <= cs[i].lastRecvTime + runTime + TimeoutGrace ==>
              CheckTimeouts(cs, now, runTime)[i] == cs[i]
    ensures now > cs[i].lastRecvTime + runTime + TimeoutGrace ==>
              IsFree(CheckTimeouts(cs, now, runTime)[i])
  {
  }

  /**
   * A datagram from a known client at tick time `t` refreshes its slot: the
   * next sweep at any time up to `t + runTime + 1 s` keeps it, with its
   * address and counters.
   */
  lemma RefreshedClientSurvives(s: ServerState, data: seq<byte>, addr: Option<UdpAddr>, i: int,
                                now: int, runTime: int)
    requires FirstMatching(s.clients, addr, i)
    requires now <= s.serverTime + runTime + TimeoutGrace
    ensures
      var r := CheckTimeouts(OnPacketData(s, data, addr).clients, now, runTime);
      && r[i].address == s.clients[i].address
      && r[i].lastRecvTime == s.serverTime
      && r[i].pingCount + r[i].payloadCount == s.clients[i].pingCount + s.clients[i].payloadCount + 1
  {
  }

  // ---------------------------------------------------------------------
  // Sending
  // ---------------------------------------------------------------------

  /** One fire-and-forget `WriteTo` started by `Send`. */
  datatype Outgoing = Outgoing(data: seq<byte>, to: UdpAddr)

  /** The writes `Send` starts: one per occupied slot, in index order. */
  function Writes(cs: seq<ClientInstance>, data: seq<byte>): (r: seq<Outgoing>)
    ensures |r| <= |cs|
    ensures forall k :: 0 <= k < |r| ==> r[k].data == data
  {
    if |cs| == 0 then []
    else
      var rest := Writes(cs[..|cs| - 1], data);
      match cs[|cs| - 1].address
      case Some(a) => rest + [Outgoing(data, a)]
      case None => rest
  }

  /** The writes go to exactly the addresses held in the table. */
  lemma {:induction false} WritesTargets(cs: seq<ClientInstance>, data: seq<byte>)
    ensures forall a :: Outgoing(data, a) in Writes(cs, data) <==>
                        exists i :: 0 <= i < |cs| && cs[i].address == Some(a)
  {
    if |cs| > 0 {
      var n := |cs| - 1;
      var init := cs[..n];
      WritesTargets(init, data);
      assert forall i :: 0 <= i < n ==> cs[i] == init[i];
    }
  }

  /** The indices of the occupied slots. */
  function OccupiedIndices(cs: seq<ClientInstance>): set<int>
  {
    set i | 0 <= i < |cs| && cs[i].address.Some?
  }

  /** `Send` starts exactly one write per occupied slot. */
  lemma {:induction false} WritesCount(cs: seq<ClientInstance>, data: seq<byte>)
    ensures |Writes(cs, data)| == |OccupiedIndices(cs)|
  {
    if |cs| > 0 {
      var n := |cs| - 1;
      var init := cs[..n];
      WritesCount(init, data);
      var before := OccupiedIndices(init);
      assert forall i :: 0 <= i < n ==> cs[i] == init[i];
      assert n !in before;
      if cs[n].address.Some? {
        assert |Writes(cs, data)| == |Writes(init, data)| + 1;
        assert OccupiedIndices(cs) == before + {n};
      } else {
        assert |Writes(cs, data)| == |Writes(init, data)|;
        assert OccupiedIndices(cs) == before;
      }
    }
  }

  datatype Sent = Sent(server: ServerState, out: seq<Outgoing>)

  /** `Send`: one write of `data` to each occupied slot, counted in `sendCount`. */
  function Send(s: ServerState, data: seq<byte>): (r: Sent)
    ensures r.server == s.(sendCount := r.server.sendCount)
    ensures r.server.sendCount == s.sendCount + |r.out|
    ensures forall k :: 0 <= k < |r.out| ==> r.out[k].data == data
    ensures forall a :: Outgoing(data, a) in r.out <==>
                        exists i :: 0 <= i < |s.clients| && s.clients[i].address == Some(a)
  {
    var out := Writes(s.clients, data);
    WritesTargets(s.clients, data);
    Sent(s.(sendCount := s.sendCount + |out|), out)
  }

  /** `sendCount` rises by exactly the number of occupied slots. */
  lemma SendCountsOccupied(s: ServerState, data: seq<byte>)
    ensures Send(s, data).server.sendCount == s.sendCount + |OccupiedIndices(s.clients)|
  {
    WritesCount(s.clients, data);
  }

  // ---------------------------------------------------------------------
  // The tick
  // ---------------------------------------------------------------------

  /** The drain loop of `Update`: every queued envelope, in order, through `OnPacketData`. */
  function Drain(s: ServerState, queue: seq<Envelope>): (r: ServerState)
    ensures r == s.(clients := r.clients) && |r.clients| == |s.clients|
    ensures forall i :: 0 <= i < |s.clients| ==>
              r.clients[i].pingCount >= s.clients[i].pingCount &&
              r.clients[i].payloadCount >= s.clients[i].payloadCount
    decreases |queue|
  {
    if |queue| == 0 then s
    else Drain(OnPacketData(s, queue[0].data, queue[0].from), queue[1..])
  }

  /** An empty queue leaves the server as it is; a one-envelope queue is one `OnPacketData`. */
  lemma DrainOne(s: ServerState, e: Envelope)
    ensures Drain(s, []) == s
    ensures Drain(s, [e]) == OnPacketData(s, e.data, e.from)
  {
    assert [e][1..] == [];
  }

  /** Draining two batches is draining their concatenation: the queue is processed FIFO. */
  lemma {:induction false} DrainAppend(s: ServerState, q1: seq<Envelope>, q2: seq<Envelope>)
    ensures Drain(s, q1 + q2) == Drain(Drain(s, q1), q2)
    decreases |q1|
  {
    if |q1| == 0 {
      assert q1 + q2 == q2;
    } else {
      var s1 := OnPacketData(s, q1[0].data, q1[0].from);
      assert (q1 + q2)[0] == q1[0];
      assert (q1 + q2)[1..] == q1[1..] + q2;
      calc {
        Drain(s, q1 + q2);
        Drain(s1, q1[1..] + q2);
        { DrainAppend(s1, q1[1..], q2); }
        Drain(Drain(s1, q1[1..]), q2);
      }
    }
  }

  predicate SendersKnown(queue: seq<Envelope>)
  {
    forall k :: 0 <= k < |queue| ==> queue[k].from.Some?
  }

  /** Draining envelopes with non-nil senders keeps the table well formed. */
  lemma {:induction false} DrainPreservesWellFormed(s: ServerState, queue: seq<Envelope>)
    requires WellFormed(s) && SendersKnown(queue)
    ensures WellFormed(Drain(s, queue))
    decreases |queue|
  {
    if |queue| > 0 {
      var s1 := OnPacketData(s, queue[0].data, queue[0].from);
      OnPacketDataPreservesUnique(s, queue[0].data, queue[0].from);
      OnPacketDataPreservesFreeClean(s, queue[0].data, queue[0].from);
      DrainPreservesWellFormed(s1, queue[1..]);
    }
  }

  /** Whether a tick at `now` is due to send a heartbeat. */
  predicate HeartbeatDue(lastSendTime: int, now: int)
  {
    lastSendTime + HeartbeatInterval < now
  }

  /**
   * `Update`: record the tick time, drain the queue, broadcast a ping if
   * more than 100 ms have passed since the last one, then sweep timeouts.
   */
  function Update(s: ServerState, now: int, runTime: int, queue: seq<Envelope>): (r: Sent)
    ensures r.server.serverTime == now
    ensures r.server.addr == s.addr && r.server.maxClients == s.maxClients
    ensures r.server.queueCapacity == s.queueCapacity
    ensures r.server.clients == CheckTimeouts(Drain(s.(serverTime := now), queue).clients, now, runTime)
    ensures |r.server.clients| == |s.clients|
    ensures HeartbeatDue(s.lastSendTime, now) ==> r.server.lastSendTime == now
    ensures !HeartbeatDue(s.lastSendTime, now) ==>
              r.server.lastSendTime == s.lastSendTime && r.out == [] && r.server.sendCount == s.sendCount
    ensures forall k :: 0 <= k < |r.out| ==> r.out[k].data == Ping
    ensures forall i :: 0 <= i < |r.server.clients| && r.server.clients[i].address.Some? ==>
              now <= r.server.clients[i].lastRecvTime + runTime + TimeoutGrace
  {
    var drained := Drain(s.(serverTime := now), queue);
    var beat := if HeartbeatDue(drained.lastSendTime, now)
                then var b := Send(drained, Ping); Sent(b.server.(lastSendTime := now), b.out)
                else Sent(drained, []);
    Sent(beat.server.(clients := CheckTimeouts(beat.server.clients, now, runTime)), beat.out)
  }

  /** The heartbeat reaches every client still in the table after the drain. */
  lemma UpdateHeartbeatTargets(s: ServerState, now: int, runTime: int, queue: seq<Envelope>)
    requires HeartbeatDue(s.lastSendTime, now)
    ensures
      var drained := Drain(s.(serverTime := now), queue);
      var r := Update(s, now, runTime, queue);
      && r.server.sendCount == s.sendCount + |OccupiedIndices(drained.clients)|
      && forall a :: Outgoing(Ping, a) in r.out <==>
                     exists i :: 0 <= i < |drained.clients| && drained.clients[i].address == Some(a)
  {
    WritesCount(Drain(s.(serverTime := now), queue).clients, Ping);
  }

  /** A tick keeps the table well formed when every queued sender is known. */
  lemma UpdatePreservesWellFormed(s: ServerState, now: int, runTime: int, queue: seq<Envelope>)
    requires WellFormed(s) && SendersKnown(queue)
    ensures WellFormed(Update(s, now, runTime, queue).server)
  {
    DrainPreservesWellFormed(s.(serverTime := now), queue);
  }

  /**
   * Two-slot scenario: A sends a payload at 0 ms, B a ping at 10 ms, C at
   * 20 ms finds the table full and is dropped; a sweep 20 ms past the
   * timeout threshold frees both slots.
   */
  lemma TwoSlotScenario(a: UdpAddr, b: UdpAddr, c: UdpAddr, payload: seq<byte>, runTime: int)
    requires !AddressEqual(Some(a), Some(b)) && !AddressEqual(Some(a), Some(c))
    requires !AddressEqual(Some(b), Some(c))
    requires !IsPing(payload)
    ensures
      var s0 := NewServer(2, None);
      var s1 := OnPacketData(s0.(serverTime := 0), payload, Some(a));
      var s2 := OnPacketData(s1.(serverTime := 10), Ping, Some(b));
      var s3 := OnPacketData(s2.(serverTime := 20), payload, Some(c));
      && s1.clients[0] == ClientInstance(Some(a), 0, 1, 0)
      && s2.clients[1] == ClientInstance(Some(b), 10, 0, 1)
      && s3 == s2.(serverTime := 20)
      && CheckTimeouts(s3.clients, runTime + TimeoutGrace + 20, runTime) == [FreeSlot, FreeSlot]
  {
    var s0 := NewServer(2, None);
    var s1 := OnPacketData(s0.(serverTime := 0), payload, Some(a));
    assert FirstFreeAt(s0.clients, 0);
    var s2 := OnPacketData(s1.(serverTime := 10), Ping, Some(b));
    AddressEqualProperties(Some(a), Some(b));
    assert FirstFreeAt(s1.clients, 1);
    var s3 := OnPacketData(s2.(serverTime := 20), payload, Some(c));
    AddressEqualProperties(Some(a), Some(c));
    AddressEqualProperties(Some(b), Some(c));
    assert NoneMatching(s2.clients, Some(c));
    assert NoneFree(s2.clients);
  }

  /**
   * End to end: a tick that drains whatever the connection delivered keeps
   * the table well formed, provided the operating system reported a sender
   * for every datagram.
   */
  lemma UpdateOnDeliveredKeepsWellFormed(s: ServerState, conn: Netcode.NetcodeConn,
                                         inbound: seq<Netcode.RawRead>, now: int, runTime: int)
    requires WellFormed(s)
    requires Netcode.BuffersSized(conn, inbound) && Netcode.SendersReported(inbound)
    ensures WellFormed(Update(s, now, runTime, Netcode.Deliver(conn, inbound)).server)
  {
    Netcode.DeliverSenders(conn, inbound);
    UpdatePreservesWellFormed(s, now, runTime, Netcode.Deliver(conn, inbound));
  }
}

=== FILE: udp.dfy ===
/**
 * Vocabulary shared by the connection, the server and the client: bytes,
 * Go's nil-able `*net.UDPAddr` as an `Option`, the address equality the
 * session table keys on, the received-datagram envelope and the heartbeat
 * sentinel `"ping"` with its period.
 */
module Udp {

  newtype byte = x: int | 0 <= x < 256

  /** A nil-able pointer: `None` is Go's `nil`. */
  datatype Option<+T> = None | Some(value: T)

  /**
   * A UDP endpoint. `ip` is 4 bytes (IPv4) or 16 bytes (IPv6 or IPv4-mapped);
   * `zone` is the IPv6 zone, which address equality ignores.
   */
  datatype UdpAddr = UdpAddr(ip: seq<byte>, port: int, zone: string)

  /** The 12-byte prefix of an IPv4-mapped IPv6 address (::ffff:a.b.c.d). */
  const V4InV6Prefix: seq<byte> := [0, 0, 0, 0, 0, 0, 0, 0, 0, 0, 0xff, 0xff]

  /**
   * IP equality as Go's `net.IP.Equal` defines it: addresses of the same
   * length compare byte for byte, and a 4-byte IPv4 address equals its
   * IPv4-mapped 16-byte form.
   */
  predicate IpEqual(a: seq<byte>, b: seq<byte>)
  {
    if |a| == |b| then a == b
    else if |a| == 4 && |b| == 16 then b[..12] == V4InV6Prefix && b[12..] == a
    else if |a| == 16 && |b| == 4 then a[..12] == V4InV6Prefix && a[12..] == b
    else false
  }

  /** `addressEqual`: nil never equals anything; otherwise IP and port must agree. */
  predicate AddressEqual(a1: Option<UdpAddr>, a2: Option<UdpAddr>)
  {
    && a1.Some?
    && a2.Some?
    && IpEqual(a1.value.ip, a2.value.ip)
    && a1.value.port == a2.value.port
  }

  /** Address equality is symmetric, nil-rejecting, reflexive on non-nil
      addresses, and blind to the zone. */
  lemma AddressEqualProperties(a1: Option<UdpAddr>, a2: Option<UdpAddr>)
    ensures AddressEqual(a1, a2) <==> AddressEqual(a2, a1)
    ensures AddressEqual(a1, a2) ==> a1.Some? && a2.Some?
    ensures a1.Some? ==> AddressEqual(a1, a1)
    ensures a1.Some? ==> forall z: string {:trigger a1.value.(zone := z)} ::
              AddressEqual(a1, Some(a1.value.(zone := z)))
  {
  }

  /** An IPv4 address and its IPv4-mapped IPv6 form denote the same peer. */
  lemma MappedV4Equal(v4: seq<byte>, port: int)
    requires |v4| == 4
    ensures AddressEqual(Some(UdpAddr(v4, port, "")), Some(UdpAddr(V4InV6Prefix + v4, port, "")))
  {
    var v6 := V4InV6Prefix + v4;
    assert v6[..12] == V4InV6Prefix;
    assert v6[12..] == v4;
  }

  /** `netcodeData`: the bytes of one received datagram and its sender. */
  datatype Envelope = Envelope(data: seq<byte>, from: Option<UdpAddr>)

  /** The heartbeat sentinel, the four bytes of "ping". */
  const Ping: seq<byte> := [0x70, 0x69, 0x6e, 0x67]

  /**
   * The heartbeat period, 0.1 s in integer milliseconds: server and client
   * both send a ping once strictly more than this has passed since the last.
   */
  const HeartbeatInterval: int := 100

  /** `bytes.Equal(ping, data)`: classification is by content alone. */
  predicate IsPing(data: seq<byte>)
  {
    data == Ping
  }
}
